=== FILE: README.md ===
# Tech-Puzzle sliding-tile engine in Dafny

This project models the puzzle engine inside `script.js` of Tech-Puzzle, a
browser sliding-tile game. The picture is cut into `gridSize × gridSize`
tiles and the last one is left empty. The player slides tiles into the empty
cell by clicking, by drag-and-drop or with the arrow keys.

The model keeps three separate things for every tile element:

- its fixed picture piece, which is the index it was created with;
- its current cell, which is the CSS `transform`, kept here as an integer
  (col, row) pair;
- its `data-index` attribute.

It also keeps the script's `tiles` array of element references. `swapTiles`
exchanges both the transform and the data-index of two elements. So the
element whose data-index is i always sits in cell i. The two scans that look
elements up by data-index, `checkWin` and `showHint`, therefore test nothing
(see Findings).

Modules:

- `Grid` (grid.dfy): cells, the row-major home cell of an index, adjacency.
- `Board` (board.dfy): the board, `createTiles`, `swapTiles`, the DOM
  queries, `canMove`, and the legal move with replay of move sequences.
- `Shuffle` (shuffle.dfy): the 100-iteration random walk of `shuffleTiles`.
- `Scans` (scans.dfy): `checkWin` and `showHint`, both as written and
  corrected.
- `Session` (session.dfy): the global game state and the event handlers.
  The handlers take a `Variant`: `AsWritten` runs the script's scans and
  `Corrected` runs the fixed ones.
- `Timer` (timer.dfy): the `MM:SS` text of `updateTimer`.
- `Wrappers` (wrappers.dfy): `Option` and the first-match query.

Every handler works on a well-formed board. Well-formed means the invariant
that `createTiles` establishes and every swap keeps (`Board.WellFormed`).

## Model

| member | source | states |
|---|---|---|
| Board.Create | script.js:92-118 | `gridSize²` elements. Element i has data-index i, picture piece i and cell (i % n, i / n). Only element n²−1 is empty. `tiles[i]` is element i. The board is well formed. |
| Board.CellsBijective | script.js:111-114 | On a well-formed board every element's cell is on the grid, no two elements share a cell, and every cell holds the element `tiles` lists at its index. |
| Grid.HomeOnBoard | script.js:112-113 | Every index below n² names a cell inside the n × n grid. |
| Grid.HomeIndex | script.js:112-113 | The row-major index of an on-board cell is below n², and (index % n, index / n) gives the cell back. |
| Grid.DivModUnique | script.js:349-350 | Quotient and remainder by n are unique. This is what makes (i % n, i / n) one-to-one. |
| Grid.AdjacentIffUnitDistance | script.js:185-192 | Two cells are adjacent iff their Manhattan distance is exactly one step. |
| Grid.AdjacentIffNeighbour | script.js:185-192 | Two cells are adjacent iff the second is one of the four cells left, right, above or below the first. Diagonals and wrap-around are excluded. |
| Grid.AdjacentSymmetric | script.js:185-192 | Adjacency is symmetric. |
| Grid.AdjacentIrreflexive | script.js:185-192 | No cell is adjacent to itself. |
| Board.CanMove | script.js:178-193 | True iff both elements exist and their cells are one step apart. False when either is null. |
| Board.CanMoveSymmetric | script.js:178-193 | `canMove(a, b)` equals `canMove(b, a)`. |
| Board.CanMoveIrreflexive | script.js:178-193 | An element can never move onto itself. |
| Board.Swap | script.js:211-234 | Exchanges the two elements' cells and data-indices, and the two `tiles` entries at those data-indices. Pieces and empty flags are untouched, and every other element and entry is unchanged. |
| Board.SwapInvolution | script.js:211-234 | Swapping the same two elements twice restores the board exactly. |
| Board.SwapPreservesWellFormed | script.js:219-234 | Any swap, legal or not, keeps the board well formed. In particular each element's data-index still names its cell and `tiles` still inverts the data-indices. |
| Board.EmptyElementOf | script.js:264-268 | On a well-formed board, `querySelector(".tile.empty")` finds the one empty element. |
| Board.ByDataIndexOf | script.js:342-343 | On a well-formed board, the data-index query for i finds `tiles[i]` when i is on the board, and null otherwise. |
| Board.ByPieceOf | script.js:101-109 | On a well-formed board, the element holding picture piece i is element i. |
| Board.EmptyElement | script.js:132 | `querySelector(".tile.empty")` returns the first element, in document order, with the `empty` class, and null when no element has it. Board.EmptyElementOf states what it finds on a well-formed board. |
| Board.ByDataIndex | script.js:165 | `querySelector('.tile[data-index="i"]')` returns the first element, in document order, whose data-index is i, and null when none has it. Board.ByDataIndexOf states what it finds on a well-formed board. |
| Board.AtCell | script.js:568-577 | `getTileAtPosition` returns an element in the requested cell. If it returns null, no element in `tiles` sits there. |
| Board.AtCellOf | script.js:568-577 | On a well-formed board, `getTileAtPosition` finds an element iff the cell is on the board. |
| Board.Slide | script.js:131-137 | A legal move succeeds iff the element exists, is not the empty one, and is adjacent to the empty one. The result is then exactly `swapTiles` of the tile and the empty element: they trade cells and data-indices, everything else is unchanged, and the board stays well formed. |
| Board.SlideReverse | script.js:219-234 | Sliding the same tile again undoes a move. |
| Board.ReplaySingle | script.js:131-137 | Replaying a one-move path is that single move. |
| Board.ReplayConcat | script.js:271-287 | Replaying p then q is replaying p + q. |
| Board.ReplayReverse | script.js:270-287 | Replaying a legal path backwards from its end returns to its start. So every board reached by legal moves can be solved. |
| Shuffle.Pick | script.js:283-284 | `Math.floor(Math.random() * len)` is a valid position in the movable list. It is the floor of draw × len. |
| Shuffle.Movable | script.js:273-279 | The movable list holds exactly the `tiles` entries that are non-empty and adjacent to the empty element. |
| Shuffle.MovableNonEmpty | script.js:281-286 | On a board of side two or more some tile is always movable. |
| Shuffle.MovableEmptyOnSingleCell | script.js:281-286 | On a 1 × 1 board nothing is movable. |
| Shuffle.MovableIffWide | script.js:281-286 | Some tile is movable exactly when the board's side is two or more. |
| Shuffle.Iteration | script.js:271-287 | One iteration is either a legal slide of a movable tile into the empty element or, when nothing is movable, a no-op. On a side of two or more the tile moved is the one the draw picks from the movable list. The empty element is the same one afterwards. |
| Shuffle.PickOnto | script.js:283-284 | Every position of the movable list is picked by some draw, so every movable tile can be chosen. |
| Shuffle.Walk | script.js:263-287 | After the iterations, the board is the start replayed along the returned path of legal moves, still well formed, with the same empty element. The path has one move per iteration when the side is two or more, and none on a 1 × 1 board. |
| Scans.CheckWin | script.js:334-358 | `checkWin` is false when `tiles` is empty. Otherwise it is true iff no index i has a non-empty element, found by the data-index query, outside cell i. Scans.CheckWinAlwaysPasses states what this means on a well-formed board. |
| Scans.CheckWinAlwaysPasses | script.js:334-358 | As written, `checkWin` passes on every well-formed board. |
| Scans.CheckWinFixedIffSolved | script.js:334-358 | The corrected `checkWin` looks elements up by picture piece. It passes exactly when every non-empty piece is in its home cell. |
| Scans.ShowHint | script.js:407-435 | The hint scan marks only a non-empty element. It marks nothing iff, for every index 0 .. n² − 2, the data-index query finds no non-empty element outside that cell. Scans.ShowHintNeverMarks states what this means on a well-formed board. |
| Scans.ShowHintNeverMarks | script.js:410-435 | As written, `showHint` marks no tile on any well-formed board. |
| Scans.HintFixedSpec | script.js:407-435 | The corrected hint marks the first non-empty piece, in piece order, that is out of place. It never marks the empty tile or a tile at home, and it marks nothing exactly when the puzzle is solved. |
| Scans.CreateSolved | script.js:92-118 | A fresh board is solved. Both checks pass on it and neither hint marks anything. |
| Scans.OneMoveFromSolved | script.js:219-234 | One legal move from a solved board breaks the picture. The corrected check fails and the corrected hint marks exactly the moved tile. The as-written check still passes and the as-written hint marks nothing. |
| Scans.FirstMoveDeclaredWon | script.js:341-363 | On a 3 × 3 board, sliding tile 7 right makes `checkWin` pass, although the picture is not whole. |
| Session.CatalogIndex | script.js:57 | The catalog entry index for level L is below 3, and it is L - 1 for the first three levels. |
| Session.CatalogIndexIsMod | script.js:57 | The catalog entry is `(currentLevel - 1) % puzzleData.length`. |
| Session.CatalogCycles | script.js:57 | Levels past the third cycle through the catalog again: level L + 3 uses the same puzzle as level L. |
| Session.Initial | script.js:24-33 | At page load the board is a solved 3 × 3 board, at level 1 with no moves, showing catalog entry 0. The game is not active, the start screen is shown, and no hint is showing. |
| Session.InitGame | script.js:55-74 | `initGame` takes the level's catalog entry, rebuilds the solved board for the current size, and resets moves to 0. Level, `gameActive` and `showingHint` are left unchanged. |
| Session.StartGame | script.js:297-315 | `startGame` makes the game active, hides the start screen and resets moves to 0. Nothing else changes: the board, the hint and the level are left alone. |
| Session.ClearHint | script.js:448-452 | `clearHint` removes the hint mark and clears `showingHint`, and changes nothing else. |
| Session.AfterSwap | script.js:236-239 | After a swap no hint is shown. |
| Session.WinCheckMeaning | script.js:341-358 | The as-written check always passes. The corrected check passes iff the picture is whole. |
| Session.AfterMove | script.js:328-331 | An accepted move adds exactly one to `moves`. The swap clears any hint (lines 236-239). Level, size, catalog entry and start screen are kept. A passing `checkWin` sets `gameActive` to false (lines 360-362). |
| Session.Click | script.js:128-139 | When the game is inactive or the start screen is visible, a click changes nothing. An illegal click also changes nothing. A legal click makes that one move and counts it. It clears any hint and keeps the start screen hidden. |
| Session.Drop | script.js:159-172 | A drop changes nothing unless the game is active, the start screen is hidden and the target is the empty element. When the drop is accepted, the element named by the dragged data-index slides. A legal slide of that element onto the empty element is always accepted: the board becomes that slide, one move is counted, any hint is cleared, the start screen stays hidden, and the game ends iff the win check passes. |
| Session.KeyTarget | script.js:540-557 | Each arrow key looks one cell away from the empty cell, on the side opposite the key's direction: ArrowUp looks below, and so on. That cell is adjacent to the empty cell. Other keys look nowhere. |
| Session.KeyDown | script.js:531-564 | An inactive game ignores keys. An accepted key moves the tile found in the key's target cell by a legal slide and counts one move. It clears any hint and leaves the start screen as it was. |
| Session.KeyDownAccepted | script.js:540-563 | A key moves a tile iff the game is active, the key is an arrow and its target cell is on the board. Any other key selects no tile, and an arrow whose target cell is off the board finds none through `getTileAtPosition`; either way nothing changes. |
| Session.ShuffleTiles | script.js:243-294 | `shuffleTiles` leaves the game active with no moves and the start screen hidden. The board is the previous one replayed along the walk's legal moves: 100 moves when the side is two or more, whose swaps clear any hint. |
| Session.HintPressed | script.js:395-445 | An inactive game ignores the hint button. Otherwise the old hint is cleared and the tile the scan finds, if any, is marked. Only the hint mark and `showingHint` change. |
| Session.HintExpired | script.js:432 | The hint timeout clears the mark and `showingHint`, and changes nothing else. |
| Session.PlayAgain | script.js:498-515 | Play-again goes up one level and rebuilds the board. The state stays valid, so it shows the new level's catalog entry. It then shuffles from the solved layout and leaves the game active with no moves and the start screen hidden. On a side of two or more no hint is left showing. |
| Session.ChangeDifficulty | script.js:455-477 | The new size gets a rebuilt board of size² elements and moves reset to 0. If the game was active it is reshuffled from the solved layout and stays active. When active, the start screen ends hidden and, on a side of two or more, no hint is left showing. Otherwise the board stays solved, the game inactive, and the start screen and `showingHint` are left as they were. |
| Session.Step | script.js:479-524 | Every event keeps the state valid. Moves stay the same, grow by one, or reset to 0. The level changes only on play-again, where it grows by one. |
| Session.InitialReachable | script.js:580 | The board at page load is reachable from the solved layout. |
| Session.ExtendReachable | script.js:271-287 | A reachable board followed by legal moves is still reachable. |
| Session.ExtendReachableBySlide | script.js:131-137 | A reachable board followed by one legal move is still reachable. |
| Session.StepKeepsReachable | script.js:270-287 | Every event keeps the board reachable from the solved layout by legal moves. |
| Session.ReachableIsSolvable | script.js:270 | A reachable board can be walked back to the solved layout by legal moves. |
| Session.MoveOutcome | script.js:128-137 | Click, drop and arrow key either change nothing or make exactly one counted move. As written, the move always ends the game (lines 360-362). Corrected, the game ends iff the picture is whole. |
| Session.HintOutcome | script.js:402-435 | As written, pressing hint in an active game marks nothing. Corrected, it marks a non-empty, out-of-place tile, and marks nothing iff the puzzle is solved. |
| Timer.ElapsedSeconds | script.js:319 | Elapsed seconds are the floor of the milliseconds over 1000, and are non-negative when the clock has not gone back. |
| Timer.Decimal | script.js:320-323 | `toString` of a natural number gives digits only, with no leading zero, one digit below 10 and at most two below 100. |
| Timer.ValueOfDecimal | script.js:320-323 | The digits `toString` produces read back as the number. |
| Timer.PadStart | script.js:320-323 | `padStart(w, "0")` gives length max(\|s\|, w) and ends with s, preceded only by '0's. |
| Timer.PaddedValue | script.js:320-323 | Zero padding does not change the value. |
| Timer.Field | script.js:320-323 | A field has at least two digits, all of them digits, and has exactly two digits below 100. From 10 on it is exactly the number's `toString`, so it never starts with a padding zero when longer than two. |
| Timer.FieldValue | script.js:320-323 | A field reads back as the number it shows. |
| Timer.Format | script.js:318-324 | The text is digits with one ':' three places from the end. It is at least `MM:SS` long and exactly `MM:SS` below 100 minutes. From 10 minutes on it does not start with '0'. |
| Timer.FormatFields | script.js:318-324 | The part before ':' reads back as the whole minutes s / 60. The two digits after it read back as the seconds s % 60, which is in 00..59. |
| Timer.ParseFormat | script.js:318-324 | Reading the display back gives the elapsed seconds. |

## Left out

- DOM plumbing: element creation, class toggles, messages, border colours and
  the `draggable` attribute. The model keeps the state these express.
- Pixel geometry: `tileSize = 300 / gridSize`, the `translate(...)` strings,
  `getTransformValues` with its regex and `parseFloat`, and the 1-pixel
  tolerance of `getTileAtPosition`. Cells are integer pairs. Floating-point
  inexactness in `canMove`'s `=== tileSize` comparison (possible when 300 is
  not a multiple of the size) is not modelled.
- `Math.random`: each shuffle iteration takes a supplied draw in [0, 1). The
  model gives one draw per iteration, even when an iteration has nothing to
  move and the script would not call `Math.random`.
- Timing: `Date.now`, `setInterval`/`setTimeout`, the 3-second hint expiry
  and message reset, and the 1-second win-screen delay. The hint expiry is
  an explicit event. Only the formatting of elapsed seconds is modelled.
- Timer.Format: only non-negative elapsed seconds are formatted. A clock
  that goes backwards gives negative values, whose JavaScript `toString`
  and `%` are not modelled.
- Audio, the win screen's visibility and its time and move texts, the
  catalog's image URLs, terms and definitions. Only the catalog index is
  modelled; the state keeps it as `puzzle`.
- Drag payloads are modelled as the integer data-index the drop handler
  looks up. A payload naming no element finds no element, as in the script.
  Non-numeric payload strings are not modelled.
- Grid sizes are positive (`Grid.Size`). The sizes come from the page's
  difficulty buttons, which are not part of this model, so size 0 or NaN
  (the script's "Puzzle not initialized" path) is not modelled. The
  `tiles.length === 0` and missing-empty-element guards are kept, but they
  cannot fire on a well-formed board.
- `initGame` leaves `gameActive` unchanged, and `swapTiles` clears every
  hint mark, not only one on the swapped tiles; the model does the same.
  With the scans as written, a board one move from solved still passes
  `checkWin` and gets no hint (see Findings).

## Findings

| source | as written | input that shows it | evidently intended | confidence | as-written member | corrected member |
|---|---|---|---|---|---|---|
| script.js:341-357 | `checkWin` looks each element up by `data-index`. `swapTiles` moves the data-index together with the transform, so the element found for index i always sits in cell i and the check always passes. | Start the game, then click any tile next to the empty cell. After that one move the game is declared won and `gameActive` becomes false, whether or not the shuffled picture is whole. On the unshuffled 3 × 3 board, sliding tile 7 right is a concrete instance. | Compare the element holding picture piece i, whose identity never changes, against cell i. | high; not executed | Session.MoveOutcome, Scans.FirstMoveDeclaredWon | Scans.CheckWinFixedIffSolved |
| script.js:410-421 | `showHint` looks elements up by `data-index` in the same way, so it never finds a misplaced tile. | Start the game, then press Hint before any move. The board has just been shuffled, yet no tile is marked and the message says "All tiles are in correct positions!". | Mark the first picture piece that is not in its home cell. | high; not executed | Session.HintOutcome, Scans.ShowHintNeverMarks | Scans.HintFixedSpec |

=== FILE: board.dfy ===
/** The puzzle board as the script keeps it: one element per tile, each with
    a fixed picture piece, a current cell (its `transform`) and a
    `data-index`, plus the script's `tiles` array of element references. */
module Board {
  import opened Wrappers
  import opened Grid

  /** One tile element.
      piece:     the index `i` it was created with; its background offset
                 (its piece of the picture) is fixed by it and never changes;
      empty:     whether it carries the `empty` class;
      cell:      the cell its `transform` places it in;
      dataIndex: its `data-index` attribute. */
  datatype Tile = Tile(piece: nat, empty: bool, cell: Cell, dataIndex: int)

  /** elems: the puzzle's child elements in document order, which no
             operation reorders; an element is named by its position here;
      tiles: the script's `tiles` array, each entry naming an element. */
  datatype Board = Board(n: Size, elems: seq<Tile>, tiles: seq<nat>)

  /** What `createTiles` lays out for a grid of side `n`. */
  function Create(n: Size): (b: Board)
    ensures b.n == n && |b.elems| == n * n && |b.tiles| == n * n
    ensures forall i :: 0 <= i < n * n ==>
      b.elems[i].dataIndex == i && b.elems[i].cell == Home(n, i) && b.elems[i].piece == i
    ensures forall i :: 0 <= i < n * n ==> (b.elems[i].empty <==> i == n * n - 1)
    ensures forall i :: 0 <= i < n * n ==> b.tiles[i] == i
    ensures WellFormed(b)
  {
    var elems := seq(n * n, (i: int) requires 0 <= i => Tile(i, i == n * n - 1, Home(n, i), i));
    var tiles := seq(n * n, (i: int) requires 0 <= i => i as nat);
    assert forall k :: 0 <= k < n * n ==> elems[k].dataIndex == k;
    Board(n, elems, tiles)
  }

  /** The invariant every board the script builds keeps: n * n elements, the
      element created i-th still holds piece i, only the last one is empty,
      every element sits in the cell its data-index names, and `tiles` maps
      each data-index back to the element holding it. */
  predicate WellFormed(b: Board) {
    && |b.elems| == b.n * b.n
    && |b.tiles| == b.n * b.n
    && (forall k :: 0 <= k < |b.elems| ==>
          b.elems[k].piece == k && (b.elems[k].empty <==> k == |b.elems| - 1))
    && (forall k :: 0 <= k < |b.elems| ==>
          && 0 <= b.elems[k].dataIndex < |b.tiles|
          && b.tiles[b.elems[k].dataIndex] == k
          && b.elems[k].cell == Home(b.n, b.elems[k].dataIndex))
    && (forall j :: 0 <= j < |b.tiles| ==>
          b.tiles[j] < |b.elems| && b.elems[b.tiles[j]].dataIndex == j)
  }

  /** The element that is empty. */
  function EmptyOf(b: Board): nat
    requires WellFormed(b)
  {
    |b.elems| - 1
  }

  /** On a well-formed board the cells are a bijection onto the grid: every
      element is on the board, no two share a cell, and every cell is taken. */
  lemma CellsBijective(b: Board)
    requires WellFormed(b)
    ensures forall k :: 0 <= k < |b.elems| ==> OnBoard(b.n, b.elems[k].cell)
    ensures forall k, l :: 0 <= k < |b.elems| && 0 <= l < |b.elems| && b.elems[k].cell == b.elems[l].cell ==> k == l
    ensures forall c :: OnBoard(b.n, c) ==> 0 <= Index(b.n, c) < |b.tiles| && b.elems[b.tiles[Index(b.n, c)]].cell == c
  {
    forall k | 0 <= k < |b.elems|
      ensures OnBoard(b.n, b.elems[k].cell)
    {
      HomeOnBoard(b.n, b.elems[k].dataIndex);
    }
    forall k, l | 0 <= k < |b.elems| && 0 <= l < |b.elems| && b.elems[k].cell == b.elems[l].cell
      ensures k == l
    {
      HomeInjective(b.n, b.elems[k].dataIndex, b.elems[l].dataIndex);
    }
    forall c | OnBoard(b.n, c)
      ensures 0 <= Index(b.n, c) < |b.tiles| && b.elems[b.tiles[Index(b.n, c)]].cell == c
    {
      HomeIndex(b.n, c);
    }
  }

  /** `swapTiles(a, c)`: exchange the two elements' transforms and
      data-indices, and the two `tiles` entries at those data-indices. */
  function Swap(b: Board, a: nat, c: nat): (r: Board)
    requires a < |b.elems| && c < |b.elems|
    requires 0 <= b.elems[a].dataIndex < |b.tiles| && 0 <= b.elems[c].dataIndex < |b.tiles|
    ensures r.n == b.n && |r.elems| == |b.elems| && |r.tiles| == |b.tiles|
    ensures r.elems[a].cell == b.elems[c].cell && r.elems[c].cell == b.elems[a].cell
    ensures r.elems[a].dataIndex == b.elems[c].dataIndex && r.elems[c].dataIndex == b.elems[a].dataIndex
    ensures forall k :: 0 <= k < |b.elems| ==>
      r.elems[k].piece == b.elems[k].piece && r.elems[k].empty == b.elems[k].empty
    ensures forall k :: 0 <= k < |b.elems| && k != a && k != c ==> r.elems[k] == b.elems[k]
    ensures r.tiles[b.elems[a].dataIndex] == b.tiles[b.elems[c].dataIndex]
    ensures r.tiles[b.elems[c].dataIndex] == b.tiles[b.elems[a].dataIndex]
    ensures forall j :: 0 <= j < |b.tiles| && j != b.elems[a].dataIndex && j != b.elems[c].dataIndex ==>
      r.tiles[j] == b.tiles[j]
  {
    var ta, tc := b.elems[a], b.elems[c];
    var elems := b.elems[a := ta.(cell := tc.cell, dataIndex := tc.dataIndex)]
                        [c := tc.(cell := ta.cell, dataIndex := ta.dataIndex)];
    var tiles := b.tiles[ta.dataIndex := b.tiles[tc.dataIndex]]
                        [tc.dataIndex := b.tiles[ta.dataIndex]];
    Board(b.n, elems, tiles)
  }

  /** Swapping the same two elements twice restores the board. */
  lemma SwapInvolution(b: Board, a: nat, c: nat)
    requires a < |b.elems| && c < |b.elems|
    requires 0 <= b.elems[a].dataIndex < |b.tiles| && 0 <= b.elems[c].dataIndex < |b.tiles|
    ensures Swap(Swap(b, a, c), a, c) == b
  {
    var r := Swap(Swap(b, a, c), a, c);
    assert r.elems == b.elems;
    assert r.tiles == b.tiles;
  }

  /** Any swap, legal or not, keeps the board well formed: the moved
      elements carry their data-indices with them. */
  lemma SwapPreservesWellFormed(b: Board, a: nat, c: nat)
    requires WellFormed(b)
    requires a < |b.elems| && c < |b.elems|
    ensures WellFormed(Swap(b, a, c))
  {
  }

  /** `document.querySelector(".tile.empty")`: the first element, in
      document order, carrying the `empty` class, or null when none does. */
  function EmptyElement(b: Board): (r: Option<nat>)
    ensures r.Some? ==> r.value < |b.elems| && b.elems[r.value].empty
    ensures r.Some? ==> forall j :: 0 <= j < r.value ==> !b.elems[j].empty
    ensures r.None? ==> forall j :: 0 <= j < |b.elems| ==> !b.elems[j].empty
  {
    FirstWhere(b.elems, (t: Tile) => t.empty)
  }

  /** `document.querySelector('.tile[data-index="i"]')`: the first
      element, in document order, whose data-index is i, or null. */
  function ByDataIndex(b: Board, i: int): (r: Option<nat>)
    ensures r.Some? ==> r.value < |b.elems| && b.elems[r.value].dataIndex == i
    ensures r.Some? ==> forall j :: 0 <= j < r.value ==> b.elems[j].dataIndex != i
    ensures r.None? ==> forall j :: 0 <= j < |b.elems| ==> b.elems[j].dataIndex != i
  {
    FirstWhere(b.elems, (t: Tile) => t.dataIndex == i)
  }

  /** The element holding picture piece `i` (the query a fixed identity
      attribute would answer). */
  function ByPiece(b: Board, i: int): Option<nat> {
    FirstWhere(b.elems, (t: Tile) => t.piece == i)
  }

  /** `getTileAtPosition`: the first entry of `tiles` whose element sits
      in cell `c`, or null. */
  function AtCell(b: Board, c: Cell): (r: Option<nat>)
    ensures r.Some? ==> r.value < |b.elems| && b.elems[r.value].cell == c
    ensures r.None? ==> forall j :: 0 <= j < |b.tiles| && b.tiles[j] < |b.elems| ==> b.elems[b.tiles[j]].cell != c
  {
    match FirstWhere(b.tiles, (k: nat) => k < |b.elems| && b.elems[k].cell == c)
    case None => None
    case Some(j) => Some(b.tiles[j])
  }

  lemma EmptyElementOf(b: Board)
    requires WellFormed(b)
    ensures EmptyElement(b) == Some(EmptyOf(b))
  {
    FirstWhereUnique(b.elems, (t: Tile) => t.empty, EmptyOf(b));
  }

  /** On a well-formed board, the element a data-index query finds is the
      one `tiles` lists at that index, and an index off the board finds none. */
  lemma ByDataIndexOf(b: Board, i: int)
    requires WellFormed(b)
    ensures ByDataIndex(b, i) == if 0 <= i < |b.tiles| then Some(b.tiles[i]) else None
  {
    if 0 <= i < |b.tiles| {
      FirstWhereUnique(b.elems, (t: Tile) => t.dataIndex == i, b.tiles[i]);
    }
  }

  lemma ByPieceOf(b: Board, i: int)
    requires WellFormed(b)
    ensures ByPiece(b, i) == if 0 <= i < |b.elems| then Some(i) else None
  {
    if 0 <= i < |b.elems| {
      FirstWhereUnique(b.elems, (t: Tile) => t.piece == i, i);
    }
  }

  /** On a well-formed board `getTileAtPosition` finds an element exactly
      when the cell is on the board, and then it is the element in that cell. */
  lemma AtCellOf(b: Board, c: Cell)
    requires WellFormed(b)
    ensures AtCell(b, c).Some? <==> OnBoard(b.n, c)
    ensures AtCell(b, c).Some? ==> b.elems[AtCell(b, c).value].cell == c
  {
    CellsBijective(b);
    if OnBoard(b.n, c) {
      var j := Index(b.n, c);
      assert b.tiles[j] < |b.elems| && b.elems[b.tiles[j]].cell == c;
    }
  }

  /** `canMove(tile, emptyTile)`: false when either is null, otherwise
      whether the two cells are adjacent. */
  function CanMove(b: Board, t: Option<nat>, e: Option<nat>): (r: bool)
    ensures r <==> t.Some? && e.Some? && t.value < |b.elems| && e.value < |b.elems|
                   && Distance(b.elems[t.value].cell, b.elems[e.value].cell) == 1
  {
    && t.Some? && e.Some? && t.value < |b.elems| && e.value < |b.elems|
    && Adjacent(b.elems[t.value].cell, b.elems[e.value].cell)
  }

  lemma CanMoveSymmetric(b: Board, t: Option<nat>, e: Option<nat>)
    ensures CanMove(b, t, e) == CanMove(b, e, t)
  {
  }

  lemma CanMoveIrreflexive(b: Board, t: Option<nat>)
    ensures !CanMove(b, t, t)
  {
  }

  /** A legal move: the non-empty element `t`, adjacent to the empty one,
      slides into the empty cell (the body of the click handler). */
  function Slide(b: Board, t: nat): (r: Option<Board>)
    requires WellFormed(b)
    ensures r.Some? <==> t < |b.elems| && t != EmptyOf(b) && Adjacent(b.elems[t].cell, b.elems[EmptyOf(b)].cell)
    ensures r.Some? ==> WellFormed(r.value) && r.value.n == b.n
    ensures r.Some? ==> r.value == Swap(b, t, EmptyOf(b))
    ensures r.Some? ==> r.value.elems[t].cell == b.elems[EmptyOf(b)].cell
    ensures r.Some? ==> r.value.elems[EmptyOf(b)].cell == b.elems[t].cell
  {
    EmptyElementOf(b);
    var e := EmptyElement(b);
    if t < |b.elems| && !b.elems[t].empty && CanMove(b, Some(t), e) then
      SwapPreservesWellFormed(b, t, e.value);
      Some(Swap(b, t, e.value))
    else None
  }

  /** Sliding the same tile again undoes a move. */
  lemma SlideReverse(b: Board, t: nat)
    requires WellFormed(b)
    requires Slide(b, t).Some?
    ensures Slide(Slide(b, t).value, t) == Some(b)
  {
    var e := EmptyOf(b);
    EmptyElementOf(b);
    SwapInvolution(b, t, e);
  }

  /** Apply moves in order; None as soon as one is illegal. */
  function Replay(b: Board, path: seq<nat>): (r: Option<Board>)
    requires WellFormed(b)
    ensures r.Some? ==> WellFormed(r.value) && r.value.n == b.n
    decreases |path|
  {
    if |path| == 0 then Some(b)
    else match Slide(b, path[0])
      case None => None
      case Some(b1) => Replay(b1, path[1..])
  }

  lemma ReplaySingle(b: Board, t: nat)
    requires WellFormed(b)
    ensures Replay(b, [t]) == Slide(b, t)
  {
    if Slide(b, t).Some? {
      assert Replay(Slide(b, t).value, []) == Slide(b, t);
    }
  }

  function Reverse<T>(s: seq<T>): (r: seq<T>)
    ensures |r| == |s|
  {
    if |s| == 0 then [] else Reverse(s[1..]) + [s[0]]
  }

  lemma TailOfConcat<T>(p: seq<T>, q: seq<T>)
    requires |p| > 0
    ensures (p + q)[0] == p[0] && (p + q)[1..] == p[1..] + q
  {
  }

  /** A non-empty path is its first move followed by the rest. */
  lemma ReplayFirst(b: Board, p: seq<nat>)
    requires WellFormed(b) && |p| > 0
    ensures Replay(b, p) == if Slide(b, p[0]).None? then None else Replay(Slide(b, p[0]).value, p[1..])
  {
  }

  lemma {:induction false} ReplayConcat(b: Board, p: seq<nat>, q: seq<nat>)
    requires WellFormed(b)
    requires Replay(b, p).Some?
    ensures Replay(b, p + q) == Replay(Replay(b, p).value, q)
    decreases |p|
  {
    if |p| == 0 {
      assert p + q == q;
    } else {
      var b1 := Slide(b, p[0]).value;
      ReplayFirst(b, p);
      assert Replay(b1, p[1..]) == Replay(b, p);
      calc {
        Replay(b, p + q);
        { ReplayFirst(b, p + q); TailOfConcat(p, q); }
        Replay(b1, p[1..] + q);
        { ReplayConcat(b1, p[1..], q); }
        Replay(Replay(b, p).value, q);
      }
    }
  }

  /** Replaying a path backwards from where it ends returns to where it
      started: every board reached by legal moves can be walked back. */
  lemma {:induction false} ReplayReverse(b: Board, p: seq<nat>)
    requires WellFormed(b)
    requires Replay(b, p).Some?
    ensures Replay(Replay(b, p).value, Reverse(p)) == Some(b)
    decreases |p|
  {
    if |p| > 0 {
      var b1 := Slide(b, p[0]).value;
      var end := Replay(b, p).value;
      ReplayReverse(b1, p[1..]);
      ReplayConcat(end, Reverse(p[1..]), [p[0]]);
      SlideReverse(b, p[0]);
    }
  }
}

=== FILE: grid.dfy ===
/** Grid geometry. The script places every tile with a CSS translation of
    (col * tileSize, row * tileSize) pixels; this model keeps the integer
    cell (col, row) instead of the pixel offsets. */
module Grid {

  /** A grid side length: the script's `gridSize`. */
  type Size = n: int | n >= 1 witness 1

  /** A cell: column and row, counted from the top-left corner. */
  datatype Cell = Cell(col: int, row: int)

  /** The cell that row-major index `i` names: (i % n, i / n). */
  function Home(n: Size, i: int): Cell {
    Cell(i % n, i / n)
  }

  /** The row-major index of a cell. */
  function Index(n: Size, c: Cell): int {
    c.row * n + c.col
  }

  predicate OnBoard(n: Size, c: Cell) {
    0 <= c.col < n && 0 <= c.row < n
  }

  function Abs(a: int): nat {
    if a < 0 then -a else a
  }

  /** One tile-step apart along exactly one axis, the other coordinate equal. */
  predicate Adjacent(p: Cell, q: Cell) {
    || (Abs(p.col - q.col) == 1 && p.row == q.row)
    || (Abs(p.row - q.row) == 1 && p.col == q.col)
  }

  /** Manhattan distance, counted in tile-steps. */
  function Distance(p: Cell, q: Cell): nat {
    Abs(p.col - q.col) + Abs(p.row - q.row)
  }

  /** The four cells one step left, right, above and below `p`. */
  function Neighbours(p: Cell): set<Cell> {
    {Cell(p.col - 1, p.row), Cell(p.col + 1, p.row), Cell(p.col, p.row - 1), Cell(p.col, p.row + 1)}
  }

  lemma AdjacentIffUnitDistance(p: Cell, q: Cell)
    ensures Adjacent(p, q) <==> Distance(p, q) == 1
  {
  }

  lemma AdjacentIffNeighbour(p: Cell, q: Cell)
    ensures Adjacent(p, q) <==> q in Neighbours(p)
  {
  }

  lemma AdjacentSymmetric(p: Cell, q: Cell)
    ensures Adjacent(p, q) <==> Adjacent(q, p)
  {
  }

  lemma AdjacentIrreflexive(p: Cell)
    ensures !Adjacent(p, p)
  {
  }

  lemma MulAtLeast(d: int, n: int)
    requires d >= 1 && n >= 0
    ensures d * n >= n
  {
  }

  /** Quotient and remainder by `n` are unique. */
  lemma DivModUnique(n: Size, q: int, r: int)
    requires 0 <= r < n
    ensures (q * n + r) / n == q && (q * n + r) % n == r
  {
    var i := q * n + r;
    var q', r' := i / n, i % n;
    assert (q - q') * n == r' - r;
    if q > q' {
      MulAtLeast(q - q', n);
    } else if q' > q {
      MulAtLeast(q' - q, n);
    }
  }

  /** Every index of an n-by-n board names a cell on the board. */
  lemma HomeOnBoard(n: Size, i: int)
    requires 0 <= i < n * n
    ensures OnBoard(n, Home(n, i))
  {
    if i / n >= n {
      MulAtLeast(i / n - n + 1, n);
      assert (i / n) * n >= n * n;
    }
  }

  /** Home and Index are inverse on the board. */
  lemma HomeIndex(n: Size, c: Cell)
    requires OnBoard(n, c)
    ensures 0 <= Index(n, c) < n * n
    ensures Home(n, Index(n, c)) == c
  {
    DivModUnique(n, c.row, c.col);
    MulAtLeast(n - c.row, n);
  }

  /** Distinct indices name distinct cells. */
  lemma HomeInjective(n: Size, i: int, j: int)
    requires Home(n, i) == Home(n, j)
    ensures i == j
  {
  }
}

=== FILE: scans.dfy ===
/** The two board scans, `checkWin` and `showHint`, as the script writes
    them (select each element by its data-index) and as they are evidently
    meant (select each element by its fixed picture piece). */
module Scans {
  import opened Wrappers
  import opened Grid
  import opened Board

  /** The puzzle picture is whole: every non-empty element sits in the cell
      of its own picture piece. */
  predicate IsSolved(b: Board) {
    forall k :: 0 <= k < |b.elems| && !b.elems[k].empty ==> b.elems[k].cell == Home(b.n, b.elems[k].piece)
  }

  /** Whether the element `q` selects for index i fails the scan's test: it
      exists, is not empty, and is not in cell i. */
  predicate Misplaced(b: Board, q: Option<nat>, i: int) {
    q.Some? && q.value < |b.elems| && !b.elems[q.value].empty && b.elems[q.value].cell != Home(b.n, i)
  }

  // ---- checkWin, as written -------------------------------------------------

  /** The loop of `checkWin` from index i on, selecting by data-index. */
  function WinScan(b: Board, i: nat): (r: bool)
    ensures r <==> forall k :: i <= k < |b.tiles| ==> !Misplaced(b, ByDataIndex(b, k), k)
    decreases |b.tiles| - i
  {
    if i >= |b.tiles| then true
    else if Misplaced(b, ByDataIndex(b, i), i) then false
    else WinScan(b, i + 1)
  }

  /** `checkWin`'s verdict: false on an empty `tiles`; otherwise true
      unless, for some index i, the element the data-index query finds is a
      non-empty one outside cell i. */
  function CheckWin(b: Board): (r: bool)
    ensures r <==> |b.tiles| > 0 && forall k :: 0 <= k < |b.tiles| ==> !Misplaced(b, ByDataIndex(b, k), k)
  {
    |b.tiles| > 0 && WinScan(b, 0)
  }

  lemma {:induction false} WinScanPasses(b: Board, i: nat)
    requires WellFormed(b)
    ensures WinScan(b, i)
    decreases |b.tiles| - i
  {
    if i < |b.tiles| {
      ByDataIndexOf(b, i);
      WinScanPasses(b, i + 1);
    }
  }

  /** As written, `checkWin` passes on every well-formed board: the element
      whose data-index is i always sits in cell i, because a swap moves the
      data-index together with the cell. */
  lemma CheckWinAlwaysPasses(b: Board)
    requires WellFormed(b)
    ensures CheckWin(b)
  {
    WinScanPasses(b, 0);
  }

  // ---- checkWin, corrected ----------------------------------------------------

  /** The loop of `checkWin` selecting each element by its picture piece. */
  function FixedWinScan(b: Board, i: nat): (r: bool)
    ensures r <==> forall k :: i <= k < |b.tiles| ==> !Misplaced(b, ByPiece(b, k), k)
    decreases |b.tiles| - i
  {
    if i >= |b.tiles| then true
    else if Misplaced(b, ByPiece(b, i), i) then false
    else FixedWinScan(b, i + 1)
  }

  function CheckWinFixed(b: Board): (r: bool)
    ensures r <==> |b.tiles| > 0 && forall k :: 0 <= k < |b.tiles| ==> !Misplaced(b, ByPiece(b, k), k)
  {
    |b.tiles| > 0 && FixedWinScan(b, 0)
  }

  lemma {:induction false} FixedWinScanIff(b: Board, i: nat)
    requires WellFormed(b)
    ensures FixedWinScan(b, i) <==>
      forall k :: i <= k < |b.elems| && !b.elems[k].empty ==> b.elems[k].cell == Home(b.n, b.elems[k].piece)
    decreases |b.tiles| - i
  {
    if i < |b.tiles| {
      ByPieceOf(b, i);
      FixedWinScanIff(b, i + 1);
    }
  }

  /** The corrected check passes exactly on solved boards. */
  lemma CheckWinFixedIffSolved(b: Board)
    requires WellFormed(b)
    ensures CheckWinFixed(b) <==> IsSolved(b)
  {
    FixedWinScanIff(b, 0);
  }

  // ---- showHint, as written ---------------------------------------------------

  /** The loop of `showHint` from index i on (i below n * n - 1), selecting
      by data-index: the first misplaced element, if any. */
  function HintScan(b: Board, i: nat): (r: Option<nat>)
    ensures r.Some? ==> r.value < |b.elems| && !b.elems[r.value].empty
    ensures r.None? <==> forall k :: i <= k < b.n * b.n - 1 ==> !Misplaced(b, ByDataIndex(b, k), k)
    decreases b.n * b.n - 1 - i
  {
    if i >= b.n * b.n - 1 then None
    else
      var q := ByDataIndex(b, i);
      if Misplaced(b, q, i) then q else HintScan(b, i + 1)
  }

  /** `showHint`'s scan: the first element, by data-index 0 .. n² - 2,
      that the query finds outside its cell; none exactly when every index
      passes. */
  function ShowHint(b: Board): (r: Option<nat>)
    ensures r.Some? ==> r.value < |b.elems| && !b.elems[r.value].empty
    ensures r.None? <==> forall k :: 0 <= k < b.n * b.n - 1 ==> !Misplaced(b, ByDataIndex(b, k), k)
  {
    HintScan(b, 0)
  }

  lemma {:induction false} HintScanNone(b: Board, i: nat)
    requires WellFormed(b)
    ensures HintScan(b, i) == None
    decreases b.n * b.n - 1 - i
  {
    if i < b.n * b.n - 1 {
      ByDataIndexOf(b, i);
      HintScanNone(b, i + 1);
    }
  }

  /** As written, `showHint` marks no tile on any well-formed board. */
  lemma ShowHintNeverMarks(b: Board)
    requires WellFormed(b)
    ensures ShowHint(b) == None
  {
    HintScanNone(b, 0);
  }

  // ---- showHint, corrected ----------------------------------------------------

  function FixedHintScan(b: Board, i: nat): (r: Option<nat>)
    ensures r.Some? ==> r.value < |b.elems| && !b.elems[r.value].empty
    decreases b.n * b.n - 1 - i
  {
    if i >= b.n * b.n - 1 then None
    else
      var q := ByPiece(b, i);
      if Misplaced(b, q, i) then q else FixedHintScan(b, i + 1)
  }

  function HintFixed(b: Board): Option<nat> {
    FixedHintScan(b, 0)
  }

  predicate AtHome(b: Board, k: nat)
    requires k < |b.elems|
  {
    b.elems[k].cell == Home(b.n, b.elems[k].piece)
  }

  /** For an index below the empty one, the corrected scan's test fails
      exactly when the piece is away from its home cell. */
  lemma MisplacedIffAway(b: Board, k: nat)
    requires WellFormed(b) && k < |b.elems| - 1
    ensures Misplaced(b, ByPiece(b, k), k) <==> !AtHome(b, k)
  {
    ByPieceOf(b, k);
  }

  /** A tile the corrected scan marks is the first piece, from i on, that is
      away from home. */
  lemma {:induction false} FixedHintScanFirst(b: Board, i: nat)
    requires WellFormed(b)
    ensures var r := FixedHintScan(b, i);
      r.Some? ==> i <= r.value < |b.elems| - 1 && !AtHome(b, r.value)
                  && forall k :: i <= k < r.value ==> AtHome(b, k)
    decreases b.n * b.n - 1 - i
  {
    if i < b.n * b.n - 1 {
      MisplacedIffAway(b, i);
      if AtHome(b, i) {
        var r := FixedHintScan(b, i + 1);
        assert FixedHintScan(b, i) == r;
        FixedHintScanFirst(b, i + 1);
        if r.Some? {
          forall k | i <= k < r.value
            ensures AtHome(b, k)
          {
            if k > i {
              assert i + 1 <= k < r.value;
            }
          }
        }
      } else {
        assert FixedHintScan(b, i) == Some(i);
      }
    } else {
      assert FixedHintScan(b, i) == None;
    }
  }

  /** When the corrected scan marks nothing, every piece from i on, up to
      the empty one, is at home. */
  lemma {:induction false} FixedHintScanNone(b: Board, i: nat)
    requires WellFormed(b)
    ensures FixedHintScan(b, i).None? ==> forall k :: i <= k < |b.elems| - 1 ==> AtHome(b, k)
    decreases b.n * b.n - 1 - i
  {
    if i < b.n * b.n - 1 && FixedHintScan(b, i).None? {
      MisplacedIffAway(b, i);
      assert FixedHintScan(b, i + 1).None?;
      FixedHintScanNone(b, i + 1);
    }
  }

  lemma FixedHintScanSpec(b: Board, i: nat)
    requires WellFormed(b)
    ensures var r := FixedHintScan(b, i);
      && (r.Some? ==> i <= r.value < |b.elems| - 1 && !AtHome(b, r.value)
                      && forall k :: i <= k < r.value ==> AtHome(b, k))
      && (r.None? ==> forall k :: i <= k < |b.elems| - 1 ==> AtHome(b, k))
  {
    FixedHintScanFirst(b, i);
    FixedHintScanNone(b, i);
  }

  /** The corrected hint marks the first tile, in picture order, that is not
      in its own cell; it never marks the empty tile nor a tile at home, and
      it marks nothing exactly when the puzzle is solved. */
  lemma HintFixedSpec(b: Board)
    requires WellFormed(b)
    ensures HintFixed(b).None? <==> IsSolved(b)
    ensures HintFixed(b).Some? ==>
      var k := HintFixed(b).value;
      && k < |b.elems| && !b.elems[k].empty && !AtHome(b, k)
      && forall j :: 0 <= j < k ==> AtHome(b, j)
  {
    FixedHintScanSpec(b, 0);
    if HintFixed(b).None? {
      forall k | 0 <= k < |b.elems| && !b.elems[k].empty
        ensures b.elems[k].cell == Home(b.n, b.elems[k].piece)
      {
        assert k < |b.elems| - 1 && AtHome(b, k);
      }
    }
  }

  // ---- what one move does to the scans ----------------------------------------

  /** A freshly created board is solved, and both checks agree. */
  lemma CreateSolved(n: Size)
    ensures IsSolved(Create(n))
    ensures CheckWin(Create(n)) && CheckWinFixed(Create(n))
    ensures HintFixed(Create(n)) == None && ShowHint(Create(n)) == None
  {
    var b := Create(n);
    CheckWinAlwaysPasses(b);
    CheckWinFixedIffSolved(b);
    HintFixedSpec(b);
    ShowHintNeverMarks(b);
  }

  /** One legal move away from a solved board: the picture is no longer
      whole, the corrected check fails and the corrected hint marks exactly
      the tile that moved; the checks as written still pass and still mark
      nothing. */
  lemma OneMoveFromSolved(b: Board, t: nat)
    requires WellFormed(b) && IsSolved(b)
    requires Slide(b, t).Some?
    ensures var b1 := Slide(b, t).value;
      && !IsSolved(b1) && !CheckWinFixed(b1) && HintFixed(b1) == Some(t)
      && CheckWin(b1) && ShowHint(b1) == None
  {
    var b1 := Slide(b, t).value;
    var e := EmptyOf(b);
    EmptyElementOf(b);
    CellsBijective(b);
    assert b1 == Swap(b, t, e);
    assert b1.elems[t].cell == b.elems[e].cell != b.elems[t].cell;
    assert !AtHome(b1, t);
    assert forall k :: 0 <= k < |b1.elems| && k != t && k != e ==> AtHome(b1, k);
    CheckWinFixedIffSolved(b1);
    HintFixedSpec(b1);
    CheckWinAlwaysPasses(b1);
    ShowHintNeverMarks(b1);
  }

  /** The concrete case: on a 3 x 3 board, sliding tile 7 (left of the empty
      cell) right makes `checkWin` pass although the picture is broken. */
  lemma FirstMoveDeclaredWon()
    ensures Slide(Create(3), 7).Some?
    ensures CheckWin(Slide(Create(3), 7).value)
    ensures !IsSolved(Slide(Create(3), 7).value)
  {
    var b := Create(3);
    assert Home(3, 7) == Cell(1, 2) && Home(3, 8) == Cell(2, 2);
    assert Adjacent(b.elems[7].cell, b.elems[EmptyOf(b)].cell);
    CreateSolved(3);
    OneMoveFromSolved(b, 7);
  }
}

=== FILE: session.dfy ===
/** The script's global game state and the event handlers that change it:
    tile click, drop and arrow keys, the shuffle / start / play-again /
    difficulty buttons, and the hint button with its expiry. */
module Session {
  import opened Wrappers
  import opened Grid
  import opened Board
  import opened Shuffle
  import opened Scans

  /** The number of entries of the puzzle catalog. */
  const CatalogSize: nat := 3

  /** Which scans the handlers run: the script's own, or the corrected ones. */
  datatype Variant = AsWritten | Corrected

  datatype Key = ArrowUp | ArrowDown | ArrowLeft | ArrowRight | OtherKey

  /** gridSize, tiles (inside board), moves, currentLevel, gameActive,
      showingHint; puzzle is the catalog entry whose image the tiles show;
      startHidden is whether the start screen has the `hidden` class;
      hinted is the element carrying the `hint` class, if any. */
  datatype State = State(
    gridSize: Size,
    board: Board,
    moves: nat,
    level: nat,
    puzzle: nat,
    active: bool,
    startHidden: bool,
    showingHint: bool,
    hinted: Option<nat>)

  /** What every state the handlers produce keeps. */
  predicate Valid(s: State) {
    && WellFormed(s.board)
    && s.board.n == s.gridSize
    && s.level >= 1
    && s.puzzle == CatalogIndex(s.level)
    && (s.hinted.Some? ==> s.showingHint && s.hinted.value < |s.board.elems|)
  }

  /** The catalog entry a level shows: the levels run through the catalog
      in order and start over after its last entry. */
  function CatalogIndex(level: nat): (i: nat)
    requires level >= 1
    ensures i < CatalogSize
    ensures level <= CatalogSize ==> i == level - 1
    decreases level
  {
    if level <= CatalogSize then level - 1 else CatalogIndex(level - CatalogSize)
  }

  /** The entry is the script's `(currentLevel - 1) % puzzleData.length`. */
  lemma {:induction false} CatalogIndexIsMod(level: nat)
    requires level >= 1
    ensures CatalogIndex(level) == (level - 1) % CatalogSize
    decreases level
  {
    if level > CatalogSize {
      CatalogIndexIsMod(level - CatalogSize);
    }
  }

  /** Levels past the catalog cycle through it again with period 3. */
  lemma CatalogCycles(level: nat)
    requires level >= 1
    ensures CatalogIndex(level + CatalogSize) == CatalogIndex(level)
  {
  }

  /** The state once the page has run `initGame`: a 3 x 3 solved board,
      level 1, no moves, not active, start screen shown. */
  function Initial(): (s: State)
    ensures Valid(s) && IsSolved(s.board)
    ensures s.moves == 0 && s.level == 1 && s.puzzle == 0 && !s.active && !s.startHidden
    ensures s.gridSize == 3 && s.board == Create(3) && !s.showingHint && s.hinted == None
  {
    CreateSolved(3);
    State(3, Create(3), 0, 1, 0, false, false, false, None)
  }

  /** `initGame`: pick the level's catalog entry, rebuild the board for the
      current grid size with its image, and reset the move counter. The old
      elements, and any hint class on them, are gone; `showingHint` and
      `gameActive` are left as they were. The level is at least 1 because
      it starts at 1 and only grows. */
  function InitGame(s: State): (r: State)
    requires s.level >= 1
    ensures r.board == Create(s.gridSize) && r.moves == 0 && r.hinted == None
    ensures r.puzzle == CatalogIndex(s.level)
    ensures r.gridSize == s.gridSize && r.level == s.level && r.active == s.active
    ensures r.startHidden == s.startHidden && r.showingHint == s.showingHint
    ensures Valid(r)
  {
    s.(puzzle := CatalogIndex(s.level), board := Create(s.gridSize), moves := 0, hinted := None)
  }

  /** `startGame`. */
  function StartGame(s: State): (r: State)
    ensures r.active && r.startHidden && r.moves == 0
    ensures r.board == s.board && r.level == s.level && r.gridSize == s.gridSize
    ensures r.(active := s.active, startHidden := s.startHidden, moves := s.moves) == s
    ensures Valid(s) ==> Valid(r)
  {
    s.(active := true, startHidden := true, moves := 0)
  }

  /** `clearHint`. */
  function ClearHint(s: State): (r: State)
    ensures !r.showingHint && r.hinted == None
    ensures r.board == s.board && r.moves == s.moves && r.active == s.active
    ensures r.(showingHint := s.showingHint, hinted := s.hinted) == s
    ensures Valid(s) ==> Valid(r)
  {
    s.(showingHint := false, hinted := None)
  }

  /** The board after `swapTiles`, which also clears a showing hint. */
  function AfterSwap(s: State, b: Board): (r: State)
    requires s.hinted.Some? ==> s.showingHint
    ensures r.board == b && !r.showingHint && r.hinted == None
    ensures r.moves == s.moves && r.active == s.active && r.level == s.level
  {
    if s.showingHint then ClearHint(s.(board := b)) else s.(board := b)
  }

  function WinCheck(v: Variant, b: Board): bool {
    match v
    case AsWritten => CheckWin(b)
    case Corrected => CheckWinFixed(b)
  }

  function HintFor(v: Variant, b: Board): Option<nat> {
    match v
    case AsWritten => ShowHint(b)
    case Corrected => HintFixed(b)
  }

  /** What the AsWritten and Corrected win checks decide on a well-formed board. */
  lemma WinCheckMeaning(v: Variant, b: Board)
    requires WellFormed(b)
    ensures v == AsWritten ==> WinCheck(v, b)
    ensures v == Corrected ==> (WinCheck(v, b) <==> IsSolved(b))
  {
    CheckWinAlwaysPasses(b);
    CheckWinFixedIffSolved(b);
  }

  /** An accepted move: swap, `updateMoves`, then `checkWin`, which ends the
      game when it passes. */
  function AfterMove(s: State, b: Board, v: Variant): (r: State)
    requires Valid(s) && WellFormed(b) && b.n == s.gridSize
    ensures Valid(r)
    ensures r.board == b && r.moves == s.moves + 1
    ensures r.hinted == None && !r.showingHint
    ensures r.level == s.level && r.puzzle == s.puzzle && r.gridSize == s.gridSize && r.startHidden == s.startHidden
    ensures r.active == (s.active && !WinCheck(v, b))
  {
    var s1 := AfterSwap(s, b).(moves := s.moves + 1);
    if WinCheck(v, b) then s1.(active := false) else s1
  }

  /** The click handler of tile element `k`. */
  function Click(s: State, k: nat, v: Variant): (r: State)
    requires Valid(s) && k < |s.board.elems|
    ensures Valid(r)
    ensures !s.active || !s.startHidden ==> r == s
    ensures Slide(s.board, k).None? ==> r == s
    ensures s.active && s.startHidden && Slide(s.board, k).Some? ==>
      && r.board == Slide(s.board, k).value
      && r.moves == s.moves + 1
      && r.startHidden && r.hinted == None && !r.showingHint
      && r.level == s.level && r.gridSize == s.gridSize
      && r.active == !WinCheck(v, r.board)
  {
    if !s.active || !s.startHidden then s
    else match Slide(s.board, k)
      case None => s
      case Some(b1) => AfterMove(s, b1, v)
  }

  /** The drop handler of tile element `k`, `payload` being the data-index
      the drag carried. */
  function Drop(s: State, k: nat, payload: int, v: Variant): (r: State)
    requires Valid(s) && k < |s.board.elems|
    ensures Valid(r)
    ensures !s.active || !s.startHidden || !s.board.elems[k].empty ==> r == s
    ensures s.active && s.startHidden && s.board.elems[k].empty
            && ByDataIndex(s.board, payload).Some?
            && Slide(s.board, ByDataIndex(s.board, payload).value).Some? ==>
      && r.board == Slide(s.board, ByDataIndex(s.board, payload).value).value
      && r.moves == s.moves + 1
      && r.startHidden && r.hinted == None && !r.showingHint
      && r.level == s.level && r.gridSize == s.gridSize
      && r.active == !WinCheck(v, r.board)
    ensures r != s ==>
      && ByDataIndex(s.board, payload).Some?
      && Slide(s.board, ByDataIndex(s.board, payload).value) == Some(r.board)
      && r.moves == s.moves + 1
      && r.active == !WinCheck(v, r.board)
  {
    if !s.active || !s.startHidden then s
    else if !s.board.elems[k].empty then s
    else
      var d := ByDataIndex(s.board, payload);
      if CanMove(s.board, d, Some(k)) then
        EmptyElementOf(s.board);
        SwapPreservesWellFormed(s.board, d.value, k);
        AfterMove(s, Swap(s.board, d.value, k), v)
      else s
  }

  /** The cell the keydown handler looks in, relative to the empty cell:
      the key names the direction the tile slides, so the tile comes from
      the opposite side. */
  function KeyTarget(empty: Cell, key: Key): (r: Option<Cell>)
    ensures key == OtherKey <==> r.None?
    ensures r.Some? ==> Adjacent(r.value, empty)
    ensures key == ArrowUp ==> r == Some(Cell(empty.col, empty.row + 1))
    ensures key == ArrowDown ==> r == Some(Cell(empty.col, empty.row - 1))
    ensures key == ArrowLeft ==> r == Some(Cell(empty.col + 1, empty.row))
    ensures key == ArrowRight ==> r == Some(Cell(empty.col - 1, empty.row))
  {
    match key
    case ArrowUp => Some(Cell(empty.col, empty.row + 1))
    case ArrowDown => Some(Cell(empty.col, empty.row - 1))
    case ArrowLeft => Some(Cell(empty.col + 1, empty.row))
    case ArrowRight => Some(Cell(empty.col - 1, empty.row))
    case OtherKey => None
  }

  /** The keydown handler. */
  function KeyDown(s: State, key: Key, v: Variant): (r: State)
    requires Valid(s)
    ensures Valid(r)
    ensures !s.active ==> r == s
    ensures r != s ==>
      && KeyTarget(s.board.elems[EmptyOf(s.board)].cell, key).Some?
      && AtCell(s.board, KeyTarget(s.board.elems[EmptyOf(s.board)].cell, key).value).Some?
      && Slide(s.board, AtCell(s.board, KeyTarget(s.board.elems[EmptyOf(s.board)].cell, key).value).value) == Some(r.board)
      && r.moves == s.moves + 1
      && r.startHidden == s.startHidden && r.hinted == None && !r.showingHint
      && r.active == !WinCheck(v, r.board)
  {
    if !s.active then s
    else match EmptyElement(s.board)
      case None => s
      case Some(e) =>
        match KeyTarget(s.board.elems[e].cell, key)
        case None => s
        case Some(c) =>
          match AtCell(s.board, c)
          case None => s
          case Some(t) =>
            EmptyElementOf(s.board);
            SwapPreservesWellFormed(s.board, t, e);
            AfterMove(s, Swap(s.board, t, e), v)
  }

  /** An arrow key moves a tile exactly when the game is active and the cell
      on the far side of the empty cell is on the board; any other key, or a
      cell off the board, changes nothing. */
  lemma KeyDownAccepted(s: State, key: Key, v: Variant)
    requires Valid(s)
    ensures KeyDown(s, key, v) != s <==>
      && s.active
      && KeyTarget(s.board.elems[EmptyOf(s.board)].cell, key).Some?
      && OnBoard(s.gridSize, KeyTarget(s.board.elems[EmptyOf(s.board)].cell, key).value)
  {
    EmptyElementOf(s.board);
    var ec := s.board.elems[EmptyOf(s.board)].cell;
    if s.active && KeyTarget(ec, key).Some? {
      AtCellOf(s.board, KeyTarget(ec, key).value);
    }
  }

  /** `shuffleTiles`, with `draws` the values `Math.random()` returns in the
      walk's iterations. */
  function ShuffleTiles(s: State, draws: seq<real>): (r: State)
    requires Valid(s) && |draws| == Iterations && AllDraws(draws)
    ensures Valid(r)
    ensures r.active && r.startHidden && r.moves == 0
    ensures r.level == s.level && r.puzzle == s.puzzle && r.gridSize == s.gridSize
    ensures Replay(s.board, Walk(s.board, EmptyOf(s.board), draws).1) == Some(r.board)
    ensures s.gridSize >= 2 ==> |Walk(s.board, EmptyOf(s.board), draws).1| == Iterations
    ensures s.gridSize >= 2 ==> r.hinted == None && !r.showingHint
  {
    var s1 := if s.active then s.(moves := 0) else s;
    EmptyElementOf(s1.board);
    if |s1.board.tiles| == 0 then s1
    else match EmptyElement(s1.board)
      case None => s1
      case Some(e) =>
        var w := Walk(s1.board, e, draws);
        var s2 := if |w.1| > 0 then AfterSwap(s1, w.0) else s1.(board := w.0);
        StartGame(s2)
  }

  /** `showHint`. */
  function HintPressed(s: State, v: Variant): (r: State)
    requires Valid(s)
    ensures Valid(r)
    ensures r.board == s.board && r.moves == s.moves && r.active == s.active
    ensures !s.active ==> r == s
    ensures s.active ==> r.hinted == HintFor(v, s.board) && r.showingHint == r.hinted.Some?
    ensures r.(showingHint := s.showingHint, hinted := s.hinted) == s
  {
    if !s.active then s
    else
      var s1 := ClearHint(s);
      match HintFor(v, s.board)
      case None => s1
      case Some(k) => s1.(showingHint := true, hinted := Some(k))
  }

  /** The hint's expiry timer, which calls `clearHint`. */
  function HintExpired(s: State): (r: State)
    requires Valid(s)
    ensures Valid(r) && !r.showingHint && r.hinted == None
    ensures r.board == s.board && r.moves == s.moves && r.active == s.active
    ensures r.(showingHint := s.showingHint, hinted := s.hinted) == s
  {
    ClearHint(s)
  }

  /** The play-again button: next level, `initGame`, `shuffleTiles`. */
  function PlayAgain(s: State, draws: seq<real>): (r: State)
    requires Valid(s) && |draws| == Iterations && AllDraws(draws)
    ensures Valid(r)
    ensures r.level == s.level + 1 && r.gridSize == s.gridSize
    ensures r.active && r.moves == 0 && r.startHidden
    ensures s.gridSize >= 2 ==> r.hinted == None && !r.showingHint
    ensures Replay(Create(s.gridSize), Walk(Create(s.gridSize), EmptyOf(Create(s.gridSize)), draws).1) == Some(r.board)
  {
    ShuffleTiles(InitGame(s.(level := s.level + 1)), draws)
  }

  /** `changeDifficulty(size)`: new grid size, `initGame`, and a shuffle if
      the game was active. */
  function ChangeDifficulty(s: State, size: Size, draws: seq<real>): (r: State)
    requires Valid(s) && |draws| == Iterations && AllDraws(draws)
    ensures Valid(r)
    ensures r.gridSize == size && r.level == s.level && r.moves == 0
    ensures r.active == s.active
    ensures |r.board.elems| == size * size
    ensures !s.active ==> r.board == Create(size)
    ensures !s.active ==> r.startHidden == s.startHidden && r.showingHint == s.showingHint && r.hinted == None
    ensures s.active ==> r.startHidden
    ensures s.active && size >= 2 ==> r.hinted == None && !r.showingHint
    ensures s.active ==> Replay(Create(size), Walk(Create(size), EmptyOf(Create(size)), draws).1) == Some(r.board)
  {
    var s1 := InitGame(s.(gridSize := size));
    if s1.active then ShuffleTiles(s1, draws) else s1
  }

  /** The events the page delivers to the script. */
  datatype Event =
    | Clicked(element: nat)
    | Dropped(element: nat, payload: int)
    | KeyPressed(key: Key)
    | ShufflePressed(draws: seq<real>)
    | StartPressed(draws: seq<real>)
    | HintRequested
    | HintTimedOut
    | PlayAgainPressed(draws: seq<real>)
    | DifficultyPressed(size: Size, draws: seq<real>)

  /** An event the page can deliver in state `s`: tile events name one of
      the current elements, and button events carry a full set of draws. */
  predicate EventOk(s: State, ev: Event) {
    match ev
    case Clicked(k) => k < |s.board.elems|
    case Dropped(k, _) => k < |s.board.elems|
    case ShufflePressed(d) => |d| == Iterations && AllDraws(d)
    case StartPressed(d) => |d| == Iterations && AllDraws(d)
    case PlayAgainPressed(d) => |d| == Iterations && AllDraws(d)
    case DifficultyPressed(_, d) => |d| == Iterations && AllDraws(d)
    case _ => true
  }

  /** Dispatch an event to its handler. */
  function Step(s: State, ev: Event, v: Variant): (r: State)
    requires Valid(s) && EventOk(s, ev)
    ensures Valid(r)
    ensures r.moves == s.moves || r.moves == s.moves + 1 || r.moves == 0
    ensures r.level == s.level || (ev.PlayAgainPressed? && r.level == s.level + 1)
  {
    match ev
    case Clicked(k) => Click(s, k, v)
    case Dropped(k, p) => Drop(s, k, p, v)
    case KeyPressed(key) => KeyDown(s, key, v)
    case ShufflePressed(d) => ShuffleTiles(s, d)
    case StartPressed(d) => ShuffleTiles(s, d)
    case HintRequested => HintPressed(s, v)
    case HintTimedOut => HintExpired(s)
    case PlayAgainPressed(d) => PlayAgain(s, d)
    case DifficultyPressed(size, d) => ChangeDifficulty(s, size, d)
  }

  // ---- properties of whole sessions -------------------------------------------

  /** The board can be reached from the solved layout by legal moves. */
  ghost predicate Reachable(s: State)
    requires Valid(s)
  {
    exists p :: Replay(Create(s.gridSize), p) == Some(s.board)
  }

  lemma InitialReachable()
    ensures Reachable(Initial())
  {
    assert Replay(Create(3), []) == Some(Initial().board);
  }

  /** Legal moves appended to a reachable board keep it reachable. */
  lemma ExtendReachable(s: State, b: Board, q: seq<nat>)
    requires Valid(s) && Reachable(s)
    requires Replay(s.board, q) == Some(b)
    ensures exists p :: Replay(Create(s.gridSize), p) == Some(b)
  {
    var p :| Replay(Create(s.gridSize), p) == Some(s.board);
    ReplayConcat(Create(s.gridSize), p, q);
    assert Replay(Create(s.gridSize), p + q) == Some(b);
  }

  lemma ExtendReachableBySlide(s: State, b: Board, t: nat)
    requires Valid(s) && Reachable(s)
    requires Slide(s.board, t) == Some(b)
    ensures exists p :: Replay(Create(s.gridSize), p) == Some(b)
  {
    ReplaySingle(s.board, t);
    ExtendReachable(s, b, [t]);
  }

  /** Every event keeps the board reachable from the solved layout: the
      shuffle's random walk and each accepted move are legal moves, and a
      rebuild starts again from the solved layout. */
  lemma StepKeepsReachable(s: State, ev: Event, v: Variant)
    requires Valid(s) && EventOk(s, ev) && Reachable(s)
    ensures Reachable(Step(s, ev, v))
  {
    var r := Step(s, ev, v);
    match ev
    case Clicked(k) =>
      if r != s { ExtendReachableBySlide(s, r.board, k); }
    case Dropped(k, p) =>
      if r != s { ExtendReachableBySlide(s, r.board, ByDataIndex(s.board, p).value); }
    case KeyPressed(key) =>
      if r != s {
        var ec := s.board.elems[EmptyOf(s.board)].cell;
        ExtendReachableBySlide(s, r.board, AtCell(s.board, KeyTarget(ec, key).value).value);
      }
    case ShufflePressed(d) =>
      ExtendReachable(s, r.board, Walk(s.board, EmptyOf(s.board), d).1);
    case StartPressed(d) =>
      ExtendReachable(s, r.board, Walk(s.board, EmptyOf(s.board), d).1);
    case HintRequested =>
    case HintTimedOut =>
    case PlayAgainPressed(d) =>
      assert Replay(Create(r.gridSize), Walk(Create(s.gridSize), EmptyOf(Create(s.gridSize)), d).1) == Some(r.board);
    case DifficultyPressed(size, d) =>
      if s.active {
        assert Replay(Create(r.gridSize), Walk(Create(size), EmptyOf(Create(size)), d).1) == Some(r.board);
      } else {
        assert Replay(Create(r.gridSize), []) == Some(r.board);
      }
  }

  /** A reachable board is solvable: replaying its path backwards leads to
      the solved layout. */
  lemma ReachableIsSolvable(s: State)
    requires Valid(s) && Reachable(s)
    ensures exists q :: Replay(s.board, q) == Some(Create(s.gridSize))
  {
    var p :| Replay(Create(s.gridSize), p) == Some(s.board);
    ReplayReverse(Create(s.gridSize), p);
  }

  predicate IsMove(ev: Event) {
    ev.Clicked? || ev.Dropped? || ev.KeyPressed?
  }

  /** Click, drop and arrow key either change nothing or make exactly one
      legal move and count it. As written, an accepted move always ends the
      game, whatever the picture looks like; with the corrected check the
      game ends exactly when the picture is whole. */
  lemma MoveOutcome(s: State, ev: Event, v: Variant)
    requires Valid(s) && EventOk(s, ev) && IsMove(ev)
    ensures var r := Step(s, ev, v);
      || r == s
      || (&& s.active
          && r.moves == s.moves + 1
          && r.level == s.level
          && r.gridSize == s.gridSize
          && (v == AsWritten ==> !r.active)
          && (v == Corrected ==> r.active == !IsSolved(r.board)))
  {
    var r := Step(s, ev, v);
    WinCheckMeaning(v, r.board);
  }

  /** As written, the hint button never marks a tile; corrected, it marks
      the first misplaced tile, never the empty one. */
  lemma HintOutcome(s: State)
    requires Valid(s)
    ensures s.active ==> HintPressed(s, AsWritten).hinted == None && !HintPressed(s, AsWritten).showingHint
    ensures var r := HintPressed(s, Corrected);
      s.active && r.hinted.Some? ==>
        && r.hinted.value < |s.board.elems|
        && !s.board.elems[r.hinted.value].empty
        && !AtHome(s.board, r.hinted.value)
    ensures s.active ==> (HintPressed(s, Corrected).hinted.None? <==> IsSolved(s.board))
  {
    ShowHintNeverMarks(s.board);
    HintFixedSpec(s.board);
  }
}

=== FILE: shuffle.dfy ===
/** The random walk of `shuffleTiles`: a fixed number of iterations, each
    sliding a randomly chosen movable tile into the empty cell. */
module Shuffle {
  import opened Wrappers
  import opened Grid
  import opened Board

  /** The number of iterations of the walk. */
  const Iterations: nat := 100

  /** A value `Math.random()` may return. */
  predicate IsDraw(r: real) {
    0.0 <= r < 1.0
  }

  predicate AllDraws(draws: seq<real>) {
    forall i :: 0 <= i < |draws| ==> IsDraw(draws[i])
  }

  /** `Math.floor(Math.random() * len)`: the floor of draw * len, a valid
      position in a list of length `len`. */
  function Pick(draw: real, len: nat): (k: nat)
    requires IsDraw(draw) && len > 0
    ensures k < len
    ensures k as real <= draw * len as real < k as real + 1.0
  {
    BelowOne(draw, len as real);
    (draw * len as real).Floor
  }

  /** Every position of a list of length `len` is picked by some draw:
      the draw k / len lands on k. */
  lemma PickOnto(len: nat, k: nat)
    requires k < len
    ensures IsDraw(k as real / len as real) && Pick(k as real / len as real, len) == k
  {
    assert (k as real / len as real) * len as real == k as real;
  }

  /** A fraction below one of a positive amount stays below it. */
  lemma BelowOne(d: real, l: real)
    requires 0.0 <= d < 1.0 && l > 0.0
    ensures 0.0 <= d * l < l
  {
    assert l - d * l == (1.0 - d) * l;
  }

  /** `movableTiles`: the entries of `ts` (the `tiles` array), in order,
      that are not empty and can move to the element `e`. */
  function Movable(b: Board, e: nat, ts: seq<nat>): (r: seq<nat>)
    ensures forall k :: k in r ==> k in ts && k < |b.elems| && !b.elems[k].empty && CanMove(b, Some(k), Some(e))
    ensures forall k :: k in ts && k < |b.elems| && !b.elems[k].empty && CanMove(b, Some(k), Some(e)) ==> k in r
    ensures |r| <= |ts|
  {
    if |ts| == 0 then []
    else
      var rest := Movable(b, e, ts[1..]);
      var k := ts[0];
      if k < |b.elems| && !b.elems[k].empty && CanMove(b, Some(k), Some(e)) then [k] + rest else rest
  }

  /** On a board of side two or more the empty cell always has a
      neighbour on the board, so some tile is movable. */
  lemma MovableNonEmpty(b: Board)
    requires WellFormed(b) && b.n >= 2
    ensures |Movable(b, EmptyOf(b), b.tiles)| > 0
  {
    var e := EmptyOf(b);
    CellsBijective(b);
    var ce := b.elems[e].cell;
    var c := if ce.col > 0 then Cell(ce.col - 1, ce.row) else Cell(ce.col + 1, ce.row);
    assert OnBoard(b.n, c);
    var j := Index(b.n, c);
    var k := b.tiles[j];
    assert b.elems[k].cell == c;
    assert k != e;
    assert k in b.tiles;
    assert k in Movable(b, e, b.tiles);
  }

  /** On a one-cell board nothing is movable. */
  lemma MovableEmptyOnSingleCell(b: Board)
    requires WellFormed(b) && b.n == 1
    ensures Movable(b, EmptyOf(b), b.tiles) == []
  {
  }

  /** Some tile is movable exactly when the board has side two or more. */
  lemma MovableIffWide(b: Board)
    requires WellFormed(b)
    ensures |Movable(b, EmptyOf(b), b.tiles)| > 0 <==> b.n >= 2
  {
    if b.n >= 2 {
      MovableNonEmpty(b);
    } else {
      MovableEmptyOnSingleCell(b);
    }
  }

  /** One iteration of the loop of `shuffleTiles`: collect the movable
      tiles, and if there are any slide the one the draw picks into the
      empty element `e`. Returns the board and the tiles moved (none or one). */
  function Iteration(b: Board, e: nat, draw: real): (r: (Board, seq<nat>))
    requires WellFormed(b) && e == EmptyOf(b)
    requires IsDraw(draw)
    ensures WellFormed(r.0) && r.0.n == b.n
    ensures EmptyElement(r.0) == Some(e)
    ensures Replay(b, r.1) == Some(r.0)
    ensures b.n >= 2 ==> |r.1| == 1
    ensures b.n == 1 ==> r == (b, [])
    ensures b.n >= 2 ==> (|Movable(b, e, b.tiles)| > 0
                          && r.1 == [Movable(b, e, b.tiles)[Pick(draw, |Movable(b, e, b.tiles)|)]])
  {
    EmptyElementOf(b);
    MovableIffWide(b);
    var movable := Movable(b, e, b.tiles);
    if |movable| == 0 then (b, [])
    else
      var t := movable[Pick(draw, |movable|)];
      assert t in movable;
      var b1 := Slide(b, t).value;
      ReplaySingle(b, t);
      EmptyElementOf(b1);
      (b1, [t])
  }

  /** The loop of `shuffleTiles`, one draw per iteration, with the empty
      element `e` looked up once before it. Returns the board and the
      tiles moved, in order. */
  function Walk(b: Board, e: nat, draws: seq<real>): (r: (Board, seq<nat>))
    requires WellFormed(b) && e == EmptyOf(b)
    requires AllDraws(draws)
    ensures WellFormed(r.0) && r.0.n == b.n
    ensures EmptyElement(r.0) == Some(e)
    ensures Replay(b, r.1) == Some(r.0)
    ensures b.n >= 2 ==> |r.1| == |draws|
    ensures b.n == 1 ==> r == (b, [])
    decreases |draws|
  {
    if |draws| == 0 then EmptyElementOf(b); (b, [])
    else
      var first := Iteration(b, e, draws[0]);
      var rest := Walk(first.0, e, draws[1..]);
      ReplayConcat(b, first.1, rest.1);
      (rest.0, first.1 + rest.1)
  }
}

=== FILE: timer.dfy ===
/** The text `updateTimer` writes: elapsed whole seconds as minutes and
    seconds, each left-padded with zeros to two digits, joined by ':'. */
module Timer {

  /** `Math.floor((now - start) / 1000)`: whole seconds elapsed. */
  function ElapsedSeconds(startMs: int, nowMs: int): (s: int)
    ensures s * 1000 <= nowMs - startMs < (s + 1) * 1000
    ensures nowMs >= startMs ==> s >= 0
  {
    (nowMs - startMs) / 1000
  }

  predicate IsDigit(c: char) {
    '0' as int <= c as int <= '9' as int
  }

  function DigitChar(d: nat): (c: char)
    requires d < 10
    ensures IsDigit(c) && c as int - '0' as int == d
  {
    (('0' as int) + d) as char
  }

  /** The value of a digit character; other characters count as 0. */
  function DigitValue(c: char): nat {
    if IsDigit(c) then c as int - '0' as int else 0
  }

  /** The decimal value of a string of digits. */
  function Value(s: string): nat {
    if |s| == 0 then 0 else Value(s[..|s| - 1]) * 10 + DigitValue(s[|s| - 1])
  }

  /** `n.toString()` for a natural number: its decimal digits, without
      leading zeros. */
  function Decimal(n: nat): (r: string)
    ensures 1 <= |r|
    ensures forall i :: 0 <= i < |r| ==> IsDigit(r[i])
    ensures |r| > 1 ==> r[0] != '0'
    ensures n < 10 <==> |r| == 1
    ensures n < 100 ==> |r| <= 2
    decreases n
  {
    if n < 10 then [DigitChar(n)] else Decimal(n / 10) + [DigitChar(n % 10)]
  }

  lemma {:induction false} ValueOfDecimal(n: nat)
    ensures Value(Decimal(n)) == n
    decreases n
  {
    if n >= 10 {
      var r := Decimal(n);
      assert r[..|r| - 1] == Decimal(n / 10);
      ValueOfDecimal(n / 10);
    }
  }

  function Zeros(k: nat): (z: string)
    ensures |z| == k && forall i :: 0 <= i < k ==> z[i] == '0'
  {
    seq(k, _ => '0')
  }

  /** `s.padStart(width, "0")`. */
  function PadStart(s: string, width: nat): (r: string)
    ensures |r| == if |s| >= width then |s| else width
    ensures r[|r| - |s|..] == s
    ensures forall i :: 0 <= i < |r| - |s| ==> r[i] == '0'
  {
    if |s| >= width then s else Zeros(width - |s|) + s
  }

  /** Leading zeros do not change a decimal value. */
  lemma {:induction false} ValueLeadingZeros(k: nat, s: string)
    requires forall i :: 0 <= i < |s| ==> IsDigit(s[i])
    ensures Value(Zeros(k) + s) == Value(s)
    decreases |s|
  {
    var z := Zeros(k) + s;
    if |s| == 0 {
      assert z == Zeros(k);
      ZerosValue(k);
    } else {
      assert z[..|z| - 1] == Zeros(k) + s[..|s| - 1];
      ValueLeadingZeros(k, s[..|s| - 1]);
    }
  }

  lemma {:induction false} ZerosValue(k: nat)
    ensures Value(Zeros(k)) == 0
  {
    if k > 0 {
      assert Zeros(k)[..k - 1] == Zeros(k - 1);
      ZerosValue(k - 1);
    }
  }

  lemma PaddedValue(s: string, width: nat)
    requires forall i :: 0 <= i < |s| ==> IsDigit(s[i])
    ensures Value(PadStart(s, width)) == Value(s)
  {
    if |s| < width {
      assert PadStart(s, width) == Zeros(width - |s|) + s;
      ValueLeadingZeros(width - |s|, s);
    }
  }

  /** A field of the timer display: the number in at least two digits. */
  function Field(n: nat): (r: string)
    ensures |r| >= 2 && forall i :: 0 <= i < |r| ==> IsDigit(r[i])
    ensures n < 100 ==> |r| == 2
    ensures n >= 10 ==> r == Decimal(n)
    ensures |r| > 2 ==> r[0] != '0'
  {
    PadStart(Decimal(n), 2)
  }

  /** A field reads back as the number it shows. */
  lemma FieldValue(n: nat)
    ensures Value(Field(n)) == n
  {
    ValueOfDecimal(n);
    PaddedValue(Decimal(n), 2);
  }

  lemma MinutesBelowHundred(secs: nat)
    ensures secs < 6000 ==> secs / 60 < 100
  {
  }

  /** `a + ":" + b` cut at the separator: a field of digits, ':', and a
      field of two digits. */
  lemma Halves(a: string, b: string)
    requires |a| >= 2 && forall i :: 0 <= i < |a| ==> IsDigit(a[i])
    requires |b| == 2 && forall i :: 0 <= i < |b| ==> IsDigit(b[i])
    ensures var r := a + ":" + b;
      && |r| == |a| + 3 && r[..|r| - 3] == a && r[0] == a[0] && r[|r| - 3] == ':' && r[|r| - 2..] == b
      && forall i :: 0 <= i < |r| && i != |r| - 3 ==> IsDigit(r[i])
  {
    var r := a + ":" + b;
    forall i | 0 <= i < |r| && i != |r| - 3
      ensures IsDigit(r[i])
    {
      if i < |a| { assert r[i] == a[i]; } else { assert r[i] == b[i - |a| - 1]; }
    }
  }

  /** The timer text for `secs` elapsed seconds: a minutes field, ':', and
      a seconds field of exactly two digits. */
  function Format(secs: nat): (r: string)
    ensures |r| >= 5 && r[|r| - 3] == ':'
    ensures forall i :: 0 <= i < |r| && i != |r| - 3 ==> IsDigit(r[i])
    ensures secs < 6000 ==> |r| == 5
    ensures secs >= 600 ==> r[0] != '0'
  {
    var mm, ss := Field(secs / 60), Field(secs % 60);
    Halves(mm, ss);
    MinutesBelowHundred(secs);
    mm + ":" + ss
  }

  /** The part before ':' reads as the whole minutes and the two digits
      after it as the remaining seconds, which are below 60. */
  lemma FormatFields(secs: nat)
    ensures var r := Format(secs);
      Value(r[..|r| - 3]) == secs / 60 && Value(r[|r| - 2..]) == secs % 60 < 60
  {
    var mm, ss := Field(secs / 60), Field(secs % 60);
    Halves(mm, ss);
    FieldValue(secs / 60);
    FieldValue(secs % 60);
  }

  /** Reading the display back: minutes before the last ':', two digits of
      seconds after it. */
  function Parse(text: string): (secs: nat)
    requires |text| >= 3
  {
    Value(text[..|text| - 3]) * 60 + Value(text[|text| - 2..])
  }

  /** The display determines the elapsed seconds: parsing it back gives them. */
  lemma ParseFormat(secs: nat)
    ensures Parse(Format(secs)) == secs
  {
    FormatFields(secs);
  }
}

=== FILE: wrappers.dfy ===
/** Option, standing for the script's `null`-or-element results. */
module Wrappers {

  datatype Option<+T> = None | Some(value: T)

  /** The position of the first element of `s` satisfying `p`, as a
      document-order query (`querySelector`) or a forward scan returns it. */
  function FirstWhere<T>(s: seq<T>, p: T -> bool): (r: Option<nat>)
    ensures r.Some? ==> r.value < |s| && p(s[r.value])
    ensures r.Some? ==> forall j :: 0 <= j < r.value ==> !p(s[j])
    ensures r.None? ==> forall j :: 0 <= j < |s| ==> !p(s[j])
  {
    if |s| == 0 then None
    else if p(s[0]) then Some(0)
    else match FirstWhere(s[1..], p)
      case None => None
      case Some(k) => Some(k + 1)
  }

  /** The unique match of a query is what the query returns. */
  lemma {:induction false} FirstWhereUnique<T>(s: seq<T>, p: T -> bool, k: nat)
    requires k < |s| && p(s[k])
    requires forall j :: 0 <= j < |s| && j != k ==> !p(s[j])
    ensures FirstWhere(s, p) == Some(k)
  {
  }
}
